=== FILE: README.md ===
# Research-assistant chat controller, modelled in Dafny

The application is a Streamlit chat front end over a LangChain agent backed by
Gemini. Almost all of it is glue around UI and foreign calls. This project models
the part of `main()` that has definite behaviour: the per-turn conversation
controller, together with session initialisation and agent setup.

- **Retry loop** (`Retry`). A turn calls the agent at most three times. After a
  failed call it sleeps `2 ** retry_count` seconds and retries, but only when
  the error text contains `"500"` and a call is still left. Any other error is
  raised at once. The agent is opaque, so the model takes the sequence of
  outcomes its calls would produce (`Ok(output)` or `Err(text)`). Sleeping
  becomes the list of waits the loop records. `RetryLoop` mirrors the `while` /
  `break` / `raise` structure line by line. It is proved never to leave through
  its guard. Its run is proved to satisfy the declarative characterisation
  `IsLoopRun` and to equal the run computed by `RetrySpec`. `LoopRunUnique`
  shows that `IsLoopRun` admits exactly that one run.
- **Failure classifiers** (`Classify`). Each `if`/`elif` chain of substring
  tests is modelled as an ordered rule list, searched first-match. In the turn
  chain, a rate limit (`quota` or `rate`, lower-cased) beats `"500"`, and
  `"500"` beats authentication (`authentication` or `api key`, lower-cased).
  The setup chain checks authentication first (`"API key"` case-sensitive, or
  `authentication` lower-cased), then rate limit, then `"500"`. Lemmas show
  where the two chains agree and where they split. Because `rate` is a bare
  substring test, the turn chain reports any error mentioning "generate" as a
  rate limit (`GenerateReadsAsRateLimit`). That includes a `"500"` error that
  was retried.
- **Session record** (`SessionState`). The store is an immutable record.
  Initialisation fills in only the missing keys and is idempotent. "Clear
  Conversation" empties `messages`, clears the memory and drops the chart. It
  keeps the document slots. Taking in an upload overwrites only the bytes and
  the filename.
- **Controller** (`Controller`). A turn appends the user entry and then exactly
  one assistant entry. On success that entry is the output of the call that
  ended the loop. On failure it is the classified message for the raised error.
  The controller itself writes nothing else in the session. What the agent's
  tools write during a call is outside the model (see "Left out"). `Pass` models one run of `main()`: it
  initialises, takes in the upload, handles clear (which ends the pass with
  `st.rerun()`), runs setup while no executor is stored, and runs a turn when a
  prompt was submitted.

Notes on the code:

- The upload handler (lines 252-254) does not reset `pdf_full_text`. Text
  extracted from an earlier document stays beside the new file
  (`UploadKeepsStaleText`).
- Waits are `2 ** retry_count`, that is 1 and then 2.
- The only reset is "Clear Conversation", and it also drops the chart.
- The `"500"` test and the setup chain's `"API key"` test are case-sensitive.
  A text that names the key only in lower case, such as "invalid api key", is
  an authentication failure for a turn but a generic setup failure
  (`LowerCaseKeySplitsTheChains`).
- The turn chain tests rate limit before authentication.

## Model

| member | source | states |
|---|---|---|
| Text.ContainsIff | streamlit_app.py:211-358 | the substring test `sub in s` holds exactly when `sub` occurs in `s` at some position |
| Text.Lower | streamlit_app.py:211-358 | `lower()` keeps the length and maps each character on its own, turning A-Z into a-z and leaving every other character unchanged |
| Classify.FirstMatch | streamlit_app.py:342-364 | an `if`/`elif` chain picks the category of the first arm whose test fires, and yields no category exactly when no arm fires |
| Classify.ClassifyTurnError | streamlit_app.py:342-364 | on a turn failure, `quota`/`rate` (lower-cased) wins over `"500"`, which wins over `authentication`/`api key` (lower-cased); each category holds exactly when its test fires and no earlier one does |
| Classify.TurnFailureMessage | streamlit_app.py:339-364 | the assistant entry for a failed turn is the rate-limit, server-error or authentication advice in that priority, or else `"❌ Error: "` followed by the error text |
| Classify.ClassifySetupError | streamlit_app.py:210-218 | on a setup failure, `"API key"` (case-sensitive) or `authentication` wins over `quota`/`rate`, which wins over `"500"` |
| Classify.SetupFailureNotice | streamlit_app.py:210-218 | the sidebar error for a failed setup is the invalid-key, rate-limit or server-error notice in that priority, or else `"❌ Setup failed: "` followed by the error text |
| Classify.SetupAuthImpliesTurnAuth | streamlit_app.py:211-358 | every text the setup chain reads as an authentication failure also passes the turn chain's authentication test |
| Classify.RateAndAuthSplitTheChains | streamlit_app.py:211-358 | a text with both rate-limit and authentication markers is a rate limit for a turn and an authentication failure for setup |
| Classify.ServerAndAuthSplitTheChains | streamlit_app.py:211-358 | a `"500"` text naming the API key and no rate limit is a server error for a turn and an authentication failure for setup |
| Classify.ChainsAgreeOnSingleCategory | streamlit_app.py:211-358 | the two chains give the same category to every text whose markers belong to one category only, provided every authentication marker the turn chain sees is one the setup chain also sees |
| Classify.LowerCaseKeySplitsTheChains | streamlit_app.py:211-358 | a text whose only marker is the API key in a case other than "API key" is an authentication failure for a turn and a generic "Setup failed" for setup |
| Classify.GenerateReadsAsRateLimit | streamlit_app.py:342 | any error text containing "generate" is reported with the rate-limit advice, even when it also contains `"500"` |
| Retry.RetrySpec | streamlit_app.py:296-314 | the loop makes 1 to 3 calls; every call but the last hit a `"500"` error; the last is not retryable unless all 3 were used; its outcome is what is returned or raised; the waits are `[]`, `[1]` or `[1, 2]` |
| Retry.RetryLoop | streamlit_app.py:296-314 | the `while`/`break`/`raise` loop as written never exits through its guard and produces exactly the run `RetrySpec` describes |
| Retry.LoopRunUnique | streamlit_app.py:300-314 | exactly one run satisfies the loop's characterisation, whatever the agent does |
| Retry.FirstResponseWins | streamlit_app.py:300-303 | the first successful call ends the loop after `i` retries, with waits `Backoff(i)`, and its output is returned |
| Retry.NonServerErrorRaisedAtOnce | streamlit_app.py:304-314 | an error without `"500"` is raised at once, with no further wait and no further call |
| Retry.ServerErrorsExhaustRetries | streamlit_app.py:306-314 | three `"500"` errors give waits `[1, 2]`, 3 calls, and the third error raised; there is no fourth call |
| Retry.RecoversOnThirdAttempt | streamlit_app.py:300-312 | two `"500"` errors and then a response give waits `[1, 2]` and return the third output |
| Retry.ServerErrorRaisedOnlyWhenExhausted | streamlit_app.py:306-314 | a raised error contains `"500"` exactly when all three calls were used and the third call's error contains `"500"` |
| SessionState.Initialize | streamlit_app.py:83-102 | each missing key gets its default (`messages = []`, a fresh memory, every other slot `None`); each present key keeps its value |
| SessionState.InitializeKeepsSession | streamlit_app.py:83-102 | initialising an already initialised store changes nothing |
| SessionState.InitializeIdempotent | streamlit_app.py:83-102 | initialising twice gives the same session as initialising once |
| SessionState.InitializeFresh | streamlit_app.py:83-102 | the first run yields no messages, an empty memory and every optional slot `None` |
| SessionState.Clear | streamlit_app.py:258-261 | clear empties `messages`, clears the memory and sets `chart_image` to `None`; it keeps the executor, `pdf_content`, `pdf_filename` and `pdf_full_text` |
| SessionState.TakeUpload | streamlit_app.py:252-254 | an upload overwrites `pdf_content` and `pdf_filename` only, and keeps `pdf_full_text` |
| SessionState.ClearIdempotent | streamlit_app.py:258-261 | clearing twice is clearing once |
| SessionState.TakeUploadIdempotent | streamlit_app.py:252-254 | taking in the same file on a rerun changes nothing |
| SessionState.ClearCommutesWithUpload | streamlit_app.py:252-261 | clear and upload write disjoint slots, so their order does not matter |
| SessionState.UploadKeepsStaleText | streamlit_app.py:252-254 | after a new upload, the text extracted from the previous document is still stored |
| Controller.Turn | streamlit_app.py:287-372 | a turn appends the user entry and then exactly one assistant entry (the ending call's output, or the classified failure); earlier entries and all other slots stay unchanged; it makes 1 to 3 calls with waits `[]`, `[1]` or `[1, 2]` |
| Controller.ExhaustedTurnReportsServerOrRate | streamlit_app.py:306-364 | a turn whose three calls all fail with `"500"` makes 3 calls, waits `[1, 2]`, and reports the rate-limit or the server-error advice |
| Controller.EarlyFailureIsNotServerError | streamlit_app.py:306-350 | a turn that fails before the third call is never classified as a server error |
| Controller.TurnAfterClear | streamlit_app.py:258-323 | a turn after clear leaves only its own two entries, the user entry first |
| Controller.TurnsAccumulate | streamlit_app.py:289-323 | two turns keep the earlier history and add four entries, each turn's user entry in its place |
| Controller.SetupAgent | streamlit_app.py:112-219 | an executor exists exactly when a non-empty key is given and the build succeeds; with no key the notice is "API key required"; a failed build shows the setup classifier's notice |
| Controller.Prepare | streamlit_app.py:238-254 | after initialisation and upload, the document bytes and name come from the uploaded file if there is one; every other slot is its initialised value |
| Controller.Configure | streamlit_app.py:275-276 | only the executor slot changes; a stored executor is kept and no notice shown; otherwise an executor is stored exactly when the key is non-empty and the build succeeds, with the key-required or setup-classifier notice on failure |
| Controller.SetupSucceedsOnce | streamlit_app.py:275-276 | once setup has built an executor, later passes keep it and never run setup again |
| Controller.FailedSetupRetriedNextPass | streamlit_app.py:275-276 | a failed setup stores `None`, so the next pass runs setup afresh as if the failure had not happened |
| Controller.Respond | streamlit_app.py:278-290 | a turn runs exactly when an executor exists and a non-empty prompt was submitted, and then appends the user entry and the assistant reply (the ending call's output or the classified failure) after 1 to 3 calls with waits `[]`, `[1]` or `[1, 2]`; otherwise the session is unchanged |
| Controller.Pass | streamlit_app.py:226-372 | one run of `main()` writes no `pdf_full_text` of its own; clear ends the pass with no messages, no chart and a fresh memory; a stored executor is never rebuilt; without one, unless Clear Conversation was pressed in that pass, an executor exists after the pass exactly when the key is non-empty and the build succeeds; a pass ended by clear runs no setup and no turn, keeps the stored executor and records no waits; a turn adds exactly the user entry and the assistant reply after the existing history, after 1 to 3 calls with waits `[]`, `[1]` or `[1, 2]` |
| Controller.NoKeyNoTurn | streamlit_app.py:274-280 | without an executor and without an API key, no turn runs; unless Clear Conversation was pressed in that pass, the key-required notice is shown |
| Controller.FirstPassTurn | streamlit_app.py:237-323 | the first pass with a key, a working build and a prompt stores the executor and records exactly the user entry and one reply |

## Left out

- `PDFReaderTool`, `ChartMakerTool`, `CitationFormatterTool`, `generate_intelligent_followups` and `display_message`: their bodies are `pass`, so their tool behaviour cannot be modelled. The follow-up generator returns `None`, so no follow-ups are shown.
- Controller.SetupAgent: does not model that, as the file stands, `pdf_tool.run` at line 174 raises `AttributeError` inside the `try`, because `PDFReaderTool` defines no `run`. Every setup with a key therefore fails with the generic "Setup failed" notice. The model leaves the build's result abstract (`Build`), so `Built` is possible only with tool classes that have their implementations.
- LangChain agent construction, `AgentExecutor` and the Gemini LLM are foreign calls. The agent is represented only by the outcomes of its `invoke` calls. Building it is represented by a `Build` value that yields an executor or an error text.
- Controller.Turn: assumes `invoke` writes nothing to the session. The executor is given the PDF and chart tools (lines 165-187). Those tools are what write `chart_image` and `pdf_full_text` (the slots set up at lines 99-102; the chart is reset at line 261). Their bodies are stubs here, so the model leaves both slots unchanged during a turn, and `Pass` makes the same assumption.
- Controller.Turn: leaves the conversation memory unchanged. The executor saves each exchange into `ConversationBufferMemory` inside the agent library, which is not visible here. The model only creates the memory empty and clears it.
- Controller.Turn: treats every successful `invoke` as truthy for `if response:`. The executor returns a non-empty dict. A response without an `"output"` key, which would raise `KeyError`, is not modelled.
- Text.Lower: folds only the ASCII letters A-Z. Python's `str.lower()` also folds other Unicode letters, and a few of them fold to ASCII (KELVIN SIGN to `k`). Error texts built from such characters may therefore be classified differently from the model.
- DuckDuckGo search, PyPDF2 and matplotlib are network and binary libraries that are not part of this model.
- Streamlit UI calls are not modelled: the header, spinner, `st.warning` retry notices, chat display, sidebar success and info messages, and CSS. `st.rerun()` is modelled only as the end of the pass.
- `time.sleep` is recorded as a list of wait values. `os.getenv` and the key text box are represented by the `apiKey` parameter, where an empty string means no key, as in `if not gemini_api_key`.
- Retry.RetrySpec, Retry.RetryLoop and Controller.Turn require at least three outcomes. These are the calls the agent would answer, supplied by the environment. The loop never uses more than three.
- The prompt text, the tool descriptions, and the model parameters (model name, temperature, output limit, `max_iterations`, `max_token_limit`) are configuration of foreign code.

=== FILE: classify.dfy ===
/**
 The two failure classifiers of the controller. Both read an error text
 through an if/elif chain of substring tests: the first test that fires
 picks the message shown to the user. The chains are modelled as ordered
 rule lists searched first-match, so that the order is data and the
 priority between categories can be stated about every text.

 - The turn classifier (the `except` block around a chat turn) checks
   rate limit, then server error, then authentication.
 - The setup classifier (the `except` block of agent construction) checks
   authentication, then rate limit, then server error, and tests "API key"
   case-sensitively where the turn classifier tests "api key" on the
   lower-cased text.
 */
module Classify {
  import opened Common
  import opened Text

  /** A substring test: on the text as is, or on the text after `lower()`. */
  datatype Marker = Exact(needle: string) | Folded(needle: string)

  /** The failure categories that have a dedicated message. */
  datatype Category = RateLimit | ServerError | AuthError

  /** One `if`/`elif` arm: any of its markers selects its category. */
  datatype Rule = Rule(markers: seq<Marker>, category: Category)

  predicate Found(m: Marker, t: string)
  {
    match m
    case Exact(x) => Contains(t, x)
    case Folded(x) => Contains(Lower(t), x)
  }

  predicate Fires(r: Rule, t: string)
  {
    exists k :: 0 <= k < |r.markers| && Found(r.markers[k], t)
  }

  /** Rule `i` fires on `t` and no earlier rule does. */
  predicate FirstFiring(rules: seq<Rule>, t: string, i: int)
  {
    && 0 <= i < |rules|
    && Fires(rules[i], t)
    && forall j :: 0 <= j < i ==> !Fires(rules[j], t)
  }

  /** The category of the first rule that fires, or `None` for the generic fallback. */
  function FirstMatch(rules: seq<Rule>, t: string): (c: Option<Category>)
    ensures c.None? <==> forall i :: 0 <= i < |rules| ==> !Fires(rules[i], t)
    ensures c.Some? ==> exists i :: FirstFiring(rules, t, i) && rules[i].category == c.value
  {
    if |rules| == 0 then None
    else if Fires(rules[0], t) then
      assert FirstFiring(rules, t, 0);
      Some(rules[0].category)
    else
      var c := FirstMatch(rules[1..], t);
      if c.Some? then
        var i :| FirstFiring(rules[1..], t, i) && rules[1..][i].category == c.value;
        assert FirstFiring(rules, t, i + 1);
        c
      else
        c
  }

  // ---- what the markers mean, stated without the rule lists

  /** "quota" or "rate" in the lower-cased text (both chains use this test). */
  predicate MentionsRateLimit(t: string)
  {
    Contains(Lower(t), "quota") || Contains(Lower(t), "rate")
  }

  /** "500" in the text as is (both chains, and the retry test). */
  predicate MentionsServerError(t: string)
  {
    Contains(t, "500")
  }

  /** The turn chain's authentication test: "authentication" or "api key", lower-cased. */
  predicate TurnMentionsAuth(t: string)
  {
    Contains(Lower(t), "authentication") || Contains(Lower(t), "api key")
  }

  /** The setup chain's authentication test: "API key" exactly, or "authentication" lower-cased. */
  predicate SetupMentionsAuth(t: string)
  {
    Contains(t, "API key") || Contains(Lower(t), "authentication")
  }

  // ---- the two chains

  const RateRule := Rule([Folded("quota"), Folded("rate")], RateLimit)
  const ServerRule := Rule([Exact("500")], ServerError)

  /** The arms of the turn `except` block, in source order. */
  const TurnRules: seq<Rule> := [
    RateRule,
    ServerRule,
    Rule([Folded("authentication"), Folded("api key")], AuthError)
  ]

  /** The arms of the setup `except` block, in source order. */
  const SetupRules: seq<Rule> := [
    Rule([Exact("API key"), Folded("authentication")], AuthError),
    RateRule,
    ServerRule
  ]

  lemma TurnRulesMean(t: string)
    ensures Fires(TurnRules[0], t) <==> MentionsRateLimit(t)
    ensures Fires(TurnRules[1], t) <==> MentionsServerError(t)
    ensures Fires(TurnRules[2], t) <==> TurnMentionsAuth(t)
  {
    assert TurnRules[0].markers[0] == Folded("quota");
    assert TurnRules[0].markers[1] == Folded("rate");
    assert TurnRules[1].markers[0] == Exact("500");
    assert TurnRules[2].markers[0] == Folded("authentication");
    assert TurnRules[2].markers[1] == Folded("api key");
  }

  lemma SetupRulesMean(t: string)
    ensures Fires(SetupRules[0], t) <==> SetupMentionsAuth(t)
    ensures Fires(SetupRules[1], t) <==> MentionsRateLimit(t)
    ensures Fires(SetupRules[2], t) <==> MentionsServerError(t)
  {
    assert SetupRules[0].markers[0] == Exact("API key");
    assert SetupRules[0].markers[1] == Folded("authentication");
    assert SetupRules[1].markers[0] == Folded("quota");
    assert SetupRules[1].markers[1] == Folded("rate");
    assert SetupRules[2].markers[0] == Exact("500");
  }

  /** The turn chain: rate limit beats "500", which beats authentication. */
  function ClassifyTurnError(t: string): (c: Option<Category>)
    ensures c == Some(RateLimit) <==> MentionsRateLimit(t)
    ensures c == Some(ServerError) <==> !MentionsRateLimit(t) && MentionsServerError(t)
    ensures c == Some(AuthError) <==>
      !MentionsRateLimit(t) && !MentionsServerError(t) && TurnMentionsAuth(t)
    ensures c == None <==>
      !MentionsRateLimit(t) && !MentionsServerError(t) && !TurnMentionsAuth(t)
  {
    TurnRulesMean(t);
    var c := FirstMatch(TurnRules, t);
    assert c.Some? ==> exists i :: FirstFiring(TurnRules, t, i) && TurnRules[i].category == c.value;
    c
  }

  /** The setup chain: authentication beats rate limit, which beats "500". */
  function ClassifySetupError(t: string): (c: Option<Category>)
    ensures c == Some(AuthError) <==> SetupMentionsAuth(t)
    ensures c == Some(RateLimit) <==> !SetupMentionsAuth(t) && MentionsRateLimit(t)
    ensures c == Some(ServerError) <==>
      !SetupMentionsAuth(t) && !MentionsRateLimit(t) && MentionsServerError(t)
    ensures c == None <==>
      !SetupMentionsAuth(t) && !MentionsRateLimit(t) && !MentionsServerError(t)
  {
    SetupRulesMean(t);
    var c := FirstMatch(SetupRules, t);
    assert c.Some? ==> exists i :: FirstFiring(SetupRules, t, i) && SetupRules[i].category == c.value;
    c
  }

  // ---- the messages

  const RateLimitAdvice: string :=
    "\U{274C} Rate limit exceeded. \n\n**Solutions:**\n- Wait a few minutes and try again\n"
    + "- Check your Gemini API quota at console.cloud.google.com\n"
    + "- Consider upgrading to a paid tier for higher limits"
  const ServerErrorAdvice: string :=
    "\U{274C} Gemini server error (500).\n\n**Solutions:**\n- This is a temporary Google server issue\n"
    + "- Try again in a few seconds\n- The error usually resolves automatically"
  const AuthAdvice: string :=
    "\U{274C} Authentication error.\n\n**Solutions:**\n- Verify your API key is correct\n"
    + "- Get a new key at https://aistudio.google.com/app/apikey\n"
    + "- Check that the key is active and not expired"
  const TurnErrorPrefix: string := "\U{274C} Error: "

  const SetupAuthNotice: string := "\U{274C} Invalid API key. Please check your Gemini API key."
  const SetupRateNotice: string := "\U{274C} Rate limit exceeded. Please wait and try again."
  const SetupServerNotice: string := "\U{274C} Gemini server error. Please retry in a few seconds."
  const SetupErrorPrefix: string := "\U{274C} Setup failed: "

  /** The assistant entry recorded when a turn fails with error text `t`. */
  function TurnFailureMessage(t: string): (m: string)
    ensures MentionsRateLimit(t) ==> m == RateLimitAdvice
    ensures !MentionsRateLimit(t) && MentionsServerError(t) ==> m == ServerErrorAdvice
    ensures !MentionsRateLimit(t) && !MentionsServerError(t) && TurnMentionsAuth(t) ==> m == AuthAdvice
    ensures !MentionsRateLimit(t) && !MentionsServerError(t) && !TurnMentionsAuth(t) ==>
      m == TurnErrorPrefix + t
  {
    match ClassifyTurnError(t)
    case Some(RateLimit) => RateLimitAdvice
    case Some(ServerError) => ServerErrorAdvice
    case Some(AuthError) => AuthAdvice
    case None => TurnErrorPrefix + t
  }

  /** The sidebar error shown when building the agent fails with error text `t`. */
  function SetupFailureNotice(t: string): (m: string)
    ensures SetupMentionsAuth(t) ==> m == SetupAuthNotice
    ensures !SetupMentionsAuth(t) && MentionsRateLimit(t) ==> m == SetupRateNotice
    ensures !SetupMentionsAuth(t) && !MentionsRateLimit(t) && MentionsServerError(t) ==>
      m == SetupServerNotice
    ensures !SetupMentionsAuth(t) && !MentionsRateLimit(t) && !MentionsServerError(t) ==>
      m == SetupErrorPrefix + t
  {
    match ClassifySetupError(t)
    case Some(AuthError) => SetupAuthNotice
    case Some(RateLimit) => SetupRateNotice
    case Some(ServerError) => SetupServerNotice
    case None => SetupErrorPrefix + t
  }

  // ---- how the two chains relate

  /** Every text the setup chain reads as an authentication failure through
      its case-sensitive "API key" test also passes the turn chain's
      lower-cased "api key" test. */
  lemma SetupAuthImpliesTurnAuth(t: string)
    requires SetupMentionsAuth(t)
    ensures TurnMentionsAuth(t)
  {
    if Contains(t, "API key") {
      ContainsLower(t, "API key");
      assert Lower("API key") == "api key";
    }
  }

  /** The orders differ: a text with both an authentication marker and a
      rate-limit marker is a rate limit for a turn but an authentication
      failure for setup. */
  lemma RateAndAuthSplitTheChains(t: string)
    requires MentionsRateLimit(t) && SetupMentionsAuth(t)
    ensures ClassifyTurnError(t) == Some(RateLimit)
    ensures ClassifySetupError(t) == Some(AuthError)
    ensures TurnFailureMessage(t) == RateLimitAdvice
    ensures SetupFailureNotice(t) == SetupAuthNotice
  {
  }

  /** A "500" error naming the API key but no rate limit is a server error
      for a turn and an authentication failure for setup. */
  lemma ServerAndAuthSplitTheChains(t: string)
    requires MentionsServerError(t) && SetupMentionsAuth(t) && !MentionsRateLimit(t)
    ensures ClassifyTurnError(t) == Some(ServerError)
    ensures ClassifySetupError(t) == Some(AuthError)
  {
  }

  /** The chains agree on every text that carries markers of one category
      only and whose authentication markers both chains see alike. */
  lemma ChainsAgreeOnSingleCategory(t: string)
    requires !(MentionsRateLimit(t) && TurnMentionsAuth(t))
    requires !(MentionsRateLimit(t) && MentionsServerError(t))
    requires !(MentionsServerError(t) && TurnMentionsAuth(t))
    requires TurnMentionsAuth(t) ==> SetupMentionsAuth(t)
    ensures ClassifyTurnError(t) == ClassifySetupError(t)
  {
    if SetupMentionsAuth(t) {
      SetupAuthImpliesTurnAuth(t);
    }
  }

  /** The case of "API key" splits the chains: a text that names the key
      only in another case ("invalid api key") and carries no other marker
      is an authentication failure for a turn but falls through to the
      generic "Setup failed" notice for setup. */
  lemma LowerCaseKeySplitsTheChains(t: string)
    requires TurnMentionsAuth(t) && !SetupMentionsAuth(t)
    requires !MentionsRateLimit(t) && !MentionsServerError(t)
    ensures ClassifyTurnError(t) == Some(AuthError)
    ensures ClassifySetupError(t) == None
    ensures TurnFailureMessage(t) == AuthAdvice
    ensures SetupFailureNotice(t) == SetupErrorPrefix + t
  {
  }

  /** "rate" is matched as a bare substring, so the turn chain reads any text
      containing "generate" (or "moderate", "accurate", ...) as a rate limit,
      "500" or not. */
  lemma GenerateReadsAsRateLimit(t: string)
    requires Contains(t, "generate")
    ensures MentionsRateLimit(t)
    ensures TurnFailureMessage(t) == RateLimitAdvice
  {
    assert IsPrefix("rate", "generate"[4..]);
    assert Contains("generate"[4..], "rate");
    assert Contains("generate", "rate");
    ContainsTransitive(t, "generate", "rate");
    ContainsLower(t, "rate");
    assert Lower("rate") == "rate";
  }
}

=== FILE: common.dfy ===
/**
 Small shared vocabulary: an optional value (Python's `None` or a value)
 and the byte type of uploaded file contents.
 */
module Common {

  /** A value that may be absent, as a Python attribute that may hold `None`. */
  datatype Option<T> = None | Some(value: T)

  /** One byte of a file read with `uploaded_file.read()`. */
  newtype byte = x: int | 0 <= x < 256
}

=== FILE: controller.dfy ===
/**
 The controller in `main()`: one chat turn (append the user entry, run the
 retry loop, append the assistant's reply or the classified failure), agent
 setup with its own failure classifier, and one pass of the script from
 initialisation to the end of a turn.
 */
module Controller {
  import opened Common
  import opened SessionState
  import opened Retry
  import Classify

  /** What one turn leaves behind: the session, the waits slept, the invokes made. */
  datatype TurnResult = TurnResult(session: Session, waits: seq<nat>, attempts: nat)

  /** One chat turn on a submitted `prompt`; `outcomes` is what the agent
      does on each attempt. The user entry goes first, then exactly one
      assistant entry: the output of the attempt that ended the loop, or the
      classified message for the error it raised. Nothing but `messages`
      changes, and earlier entries are kept as they were. */
  function Turn(s: Session, prompt: string, outcomes: seq<Outcome>): (r: TurnResult)
    requires |outcomes| >= MaxRetries
    ensures 1 <= r.attempts <= MaxRetries && |r.waits| == r.attempts - 1
    ensures r.waits == [] || r.waits == [1] || r.waits == [1, 2]
    ensures forall i :: 0 <= i < r.attempts - 1 ==> Retryable(outcomes[i])
    ensures r.attempts < MaxRetries ==> !Retryable(outcomes[r.attempts - 1])
    ensures |r.session.messages| == |s.messages| + 2
    ensures r.session.messages[..|s.messages|] == s.messages
    ensures r.session.messages[|s.messages|] == Entry(User, prompt)
    ensures r.session.messages[|s.messages| + 1].role == Assistant
    ensures outcomes[r.attempts - 1].Ok? ==>
      r.session.messages[|s.messages| + 1].content == outcomes[r.attempts - 1].output
    ensures outcomes[r.attempts - 1].Err? ==>
      r.session.messages[|s.messages| + 1].content ==
        Classify.TurnFailureMessage(outcomes[r.attempts - 1].text)
    ensures r.session == s.(messages := r.session.messages)
  {
    var withUser := s.messages + [Entry(User, prompt)];
    var run := RetrySpec(outcomes);
    var reply := Entry(Assistant,
      match run.stop
      case Returned(out) => out
      case Raised(e) => Classify.TurnFailureMessage(e));
    TurnResult(s.(messages := withUser + [reply]), run.waits, run.attempts)
  }

  /** Three "500" errors end the turn with a rate-limit or server-error
      message, never the authentication or generic one. */
  lemma ExhaustedTurnReportsServerOrRate(s: Session, prompt: string, outcomes: seq<Outcome>)
    requires |outcomes| >= MaxRetries
    requires Retryable(outcomes[0]) && Retryable(outcomes[1]) && Retryable(outcomes[2])
    ensures Turn(s, prompt, outcomes).attempts == 3
    ensures Turn(s, prompt, outcomes).waits == [1, 2]
    ensures Turn(s, prompt, outcomes).session.messages[|s.messages| + 1].content
      in {Classify.RateLimitAdvice, Classify.ServerErrorAdvice}
  {
  }

  /** A turn that fails before the third attempt failed on an error without
      "500", so its message is never the server-error one. */
  lemma EarlyFailureIsNotServerError(s: Session, prompt: string, outcomes: seq<Outcome>)
    requires |outcomes| >= MaxRetries
    requires Turn(s, prompt, outcomes).attempts < MaxRetries
    requires outcomes[Turn(s, prompt, outcomes).attempts - 1].Err?
    ensures Classify.ClassifyTurnError(outcomes[Turn(s, prompt, outcomes).attempts - 1].text)
      != Some(Classify.ServerError)
  {
  }

  /** A turn right after "Clear Conversation" leaves exactly its own two entries. */
  lemma TurnAfterClear(s: Session, prompt: string, outcomes: seq<Outcome>)
    requires |outcomes| >= MaxRetries
    ensures |Turn(Clear(s), prompt, outcomes).session.messages| == 2
    ensures Turn(Clear(s), prompt, outcomes).session.messages[0] == Entry(User, prompt)
  {
  }

  /** Two turns in a row keep the history of the first and add four entries. */
  lemma TurnsAccumulate(s: Session, p1: string, o1: seq<Outcome>, p2: string, o2: seq<Outcome>)
    requires |o1| >= MaxRetries && |o2| >= MaxRetries
    ensures var t2 := Turn(Turn(s, p1, o1).session, p2, o2).session;
      |t2.messages| == |s.messages| + 4 && t2.messages[..|s.messages|] == s.messages
      && t2.messages[|s.messages|] == Entry(User, p1)
      && t2.messages[|s.messages| + 2] == Entry(User, p2)
  {
  }

  // ---- agent setup

  /** What constructing the LLM, tools and executor does: yields an executor
      or raises with an error text. */
  datatype Build = Built(executor: Executor) | BuildFailed(text: string)

  /** The outcome of setup: the executor if any, and the sidebar error shown. */
  datatype SetupResult = SetupResult(executor: Option<Executor>, notice: Option<string>)

  const KeyRequiredNotice: string := "\U{26A0}\U{FE0F} API key required to continue"

  /** `setup_enhanced_agent`: with no API key (missing or empty) nothing is
      built; otherwise the build either yields the executor or fails with
      the setup classifier's message. */
  function SetupAgent(apiKey: string, build: Build): (r: SetupResult)
    ensures r.executor.Some? <==> apiKey != "" && build.Built?
    ensures r.executor.Some? ==> r.executor.value == build.executor && r.notice.None?
    ensures apiKey == "" ==> r.notice == Some(KeyRequiredNotice)
    ensures apiKey != "" && build.BuildFailed? ==>
      r.notice == Some(Classify.SetupFailureNotice(build.text))
  {
    if apiKey == "" then SetupResult(None, Some(KeyRequiredNotice))
    else
      match build
      case Built(e) => SetupResult(Some(e), None)
      case BuildFailed(t) => SetupResult(None, Some(Classify.SetupFailureNotice(t)))
  }

  // ---- one pass of the script

  /** The inputs of one pass: the file in the uploader, whether "Clear
      Conversation" was pressed, the API key found, what building the agent
      would do, the chat input, and what the agent does on each attempt. */
  datatype PassInput = PassInput(
    upload: Option<Upload>,
    clearPressed: bool,
    apiKey: string,
    build: Build,
    prompt: Option<string>,
    outcomes: seq<Outcome>
  )

  datatype PassResult = PassResult(
    session: Session,
    waits: seq<nat>,
    attempts: nat,
    setupNotice: Option<string>
  )

  /** A chat input that Python's `if prompt :=` accepts. */
  predicate Submitted(prompt: Option<string>)
  {
    prompt.Some? && prompt.value != ""
  }

  /** The session after initialisation and taking in the uploader's file:
      the file, if any, supplies the document bytes and name; every other
      slot is the initialised one. */
  function Prepare(raw: RawState, upload: Option<Upload>): (s: Session)
    ensures s.messages == Initialize(raw).messages && s.memory == Initialize(raw).memory
    ensures s.executor == Initialize(raw).executor && s.chartImage == Initialize(raw).chartImage
    ensures s.pdfFullText == Initialize(raw).pdfFullText
    ensures upload.Some? ==>
      s.pdfContent == Some(upload.value.content) && s.pdfFilename == Some(upload.value.name)
    ensures upload.None? ==>
      s.pdfContent == Initialize(raw).pdfContent && s.pdfFilename == Initialize(raw).pdfFilename
  {
    if upload.Some? then TakeUpload(Initialize(raw), upload.value) else Initialize(raw)
  }

  /** `if st.session_state.agent_executor is None: ... = setup_enhanced_agent()`:
      setup runs only when no executor is stored, and its result (even
      `None`) is stored. Only the executor slot changes. */
  function Configure(s: Session, apiKey: string, build: Build): (r: (Session, Option<string>))
    ensures r.0 == s.(executor := r.0.executor)
    ensures s.executor.Some? ==> r.0.executor == s.executor && r.1.None?
    ensures s.executor.None? ==> (r.0.executor.Some? <==> apiKey != "" && build.Built?)
    ensures s.executor.None? && r.0.executor.Some? ==>
      r.0.executor == Some(build.executor) && r.1.None?
    ensures s.executor.None? && apiKey == "" ==> r.1 == Some(KeyRequiredNotice)
    ensures s.executor.None? && apiKey != "" && build.BuildFailed? ==>
      r.1 == Some(Classify.SetupFailureNotice(build.text))
  {
    if s.executor.Some? then (s, None)
    else
      var setup := SetupAgent(apiKey, build);
      (s.(executor := setup.executor), setup.notice)
  }

  /** Once setup has built an executor, later passes never run it again,
      whatever key and build they would see. */
  lemma SetupSucceedsOnce(s: Session, apiKey: string, e: Executor, apiKey2: string, build2: Build)
    requires s.executor.None? && apiKey != ""
    ensures var first := Configure(s, apiKey, Built(e));
      Configure(first.0, apiKey2, build2) == (first.0, None)
      && first.0.executor == Some(e)
  {
  }

  /** A failed setup stores `None`, so the next pass runs setup afresh, as
      if the failed attempt had not happened. */
  lemma FailedSetupRetriedNextPass(s: Session, apiKey: string, build: Build, apiKey2: string, build2: Build)
    requires s.executor.None?
    requires apiKey == "" || build.BuildFailed?
    ensures Configure(Configure(s, apiKey, build).0, apiKey2, build2) == Configure(s, apiKey2, build2)
  {
  }

  /** `after` is `before` with one turn appended: the user entry, then the
      assistant's reply taken from the call that ended the loop (its output,
      or the classified message of the error it raised), after 1 to 3 calls
      separated by the backoff waits. */
  predicate RecordsTurn(before: seq<Entry>, after: seq<Entry>, prompt: string,
                        outcomes: seq<Outcome>, waits: seq<nat>, attempts: nat)
  {
    && 1 <= attempts <= MaxRetries <= |outcomes|
    && |waits| == attempts - 1
    && (waits == [] || waits == [1] || waits == [1, 2])
    && |after| == |before| + 2
    && after[..|before|] == before
    && after[|before|] == Entry(User, prompt)
    && after[|before| + 1].role == Assistant
    && (outcomes[attempts - 1].Ok? ==> after[|before| + 1].content == outcomes[attempts - 1].output)
    && (outcomes[attempts - 1].Err? ==>
          after[|before| + 1].content == Classify.TurnFailureMessage(outcomes[attempts - 1].text))
  }

  /** The rest of the pass once setup is done: a turn when an executor
      exists and a prompt was submitted, otherwise nothing. */
  function Respond(s: Session, prompt: Option<string>, outcomes: seq<Outcome>, notice: Option<string>): (p: PassResult)
    requires |outcomes| >= MaxRetries
    ensures p.setupNotice == notice
    ensures p.session == s.(messages := p.session.messages)
    ensures p.attempts > 0 <==> s.executor.Some? && Submitted(prompt)
    ensures p.attempts == 0 ==> p.session == s && p.waits == []
    ensures p.attempts > 0 ==>
      RecordsTurn(s.messages, p.session.messages, prompt.value, outcomes, p.waits, p.attempts)
  {
    if s.executor.Some? && Submitted(prompt) then
      var t := Turn(s, prompt.value, outcomes);
      PassResult(t.session, t.waits, t.attempts, notice)
    else
      PassResult(s, [], 0, notice)
  }

  /** One run of `main()` over the store `raw`. Pressing clear ends the pass
      (`st.rerun()`); setup runs only while no executor is stored; a turn
      runs only with an executor and a submitted prompt. No pass touches the
      extracted document text. */
  function Pass(raw: RawState, inp: PassInput): (p: PassResult)
    requires |inp.outcomes| >= MaxRetries
    ensures p.session.pdfFullText == Initialize(raw).pdfFullText
    ensures inp.upload.Some? ==>
      p.session.pdfFilename == Some(inp.upload.value.name)
      && p.session.pdfContent == Some(inp.upload.value.content)
    ensures inp.upload.None? ==>
      p.session.pdfFilename == Initialize(raw).pdfFilename
      && p.session.pdfContent == Initialize(raw).pdfContent
    ensures inp.clearPressed ==>
      p.session.messages == [] && p.session.chartImage == None
      && p.session.memory == EmptyMemory && p.attempts == 0 && p.setupNotice.None?
      && p.session.executor == Initialize(raw).executor && p.waits == []
    ensures !inp.clearPressed ==>
      p.session.chartImage == Initialize(raw).chartImage
      && p.session.memory == Initialize(raw).memory
    ensures Initialize(raw).executor.Some? ==>
      p.session.executor == Initialize(raw).executor && p.setupNotice.None?
    ensures !inp.clearPressed && Initialize(raw).executor.None? ==>
      (p.session.executor.Some? <==> inp.apiKey != "" && inp.build.Built?)
    ensures p.attempts > 0 <==>
      !inp.clearPressed && p.session.executor.Some? && Submitted(inp.prompt)
    ensures p.attempts == 0 && !inp.clearPressed ==>
      p.session.messages == Initialize(raw).messages && p.waits == []
    ensures p.attempts > 0 ==>
      RecordsTurn(Initialize(raw).messages, p.session.messages, inp.prompt.value,
                  inp.outcomes, p.waits, p.attempts)
  {
    var s1 := Prepare(raw, inp.upload);
    if inp.clearPressed then
      PassResult(Clear(s1), [], 0, None)
    else
      var configured := Configure(s1, inp.apiKey, inp.build);
      Respond(configured.0, inp.prompt, inp.outcomes, configured.1)
  }

  /** Without a usable API key no turn runs and the history is untouched. */
  lemma NoKeyNoTurn(raw: RawState, inp: PassInput)
    requires |inp.outcomes| >= MaxRetries
    requires Initialize(raw).executor.None? && inp.apiKey == ""
    ensures Pass(raw, inp).attempts == 0
    ensures !inp.clearPressed ==> Pass(raw, inp).setupNotice == Some(KeyRequiredNotice)
  {
  }

  /** The first pass with a key, a working build and a prompt records exactly
      the user entry and one reply. */
  lemma FirstPassTurn(inp: PassInput, e: Executor)
    requires |inp.outcomes| >= MaxRetries
    requires !inp.clearPressed && inp.apiKey != "" && inp.build == Built(e) && Submitted(inp.prompt)
    ensures Pass(NoKeys, inp).session.executor == Some(e)
    ensures |Pass(NoKeys, inp).session.messages| == 2
    ensures Pass(NoKeys, inp).session.messages[0] == Entry(User, inp.prompt.value)
    ensures Pass(NoKeys, inp).session.messages[1].role == Assistant
  {
  }
}

=== FILE: retry.dfy ===
/**
 The bounded retry loop around the agent call of one chat turn.

 The agent is opaque: `outcomes[k]` is what its `invoke` would return on
 attempt `k + 1` (an output, or the text of the exception it raises). The
 loop makes at most `MaxRetries` attempts; after a failed attempt it waits
 `2^retry_count` seconds and tries again only when the error text contains
 "500" and another attempt is left; any other error is re-raised at once.
 Sleeping is modelled by recording the wait, not by waiting.
 */
module Retry {
  import opened Common
  import Classify

  /** `max_retries`: the number of attempts, not of repetitions. */
  const MaxRetries: nat := 3

  /** What one `invoke` of the agent executor does. */
  datatype Outcome = Ok(output: string) | Err(text: string)

  /** How the loop is left: `break` after a response, or `raise e`. */
  datatype Stop = Returned(output: string) | Raised(error: string)

  /** One run of the loop: how it stopped, the waits it slept, the invokes it made. */
  datatype Run = Run(stop: Stop, waits: seq<nat>, attempts: nat)

  /** An error the loop would retry if attempts remained: its text contains "500". */
  predicate Retryable(o: Outcome)
  {
    o.Err? && Classify.MentionsServerError(o.text)
  }

  function StopOf(o: Outcome): Stop
  {
    match o
    case Ok(out) => Returned(out)
    case Err(e) => Raised(e)
  }

  /** `2 ** k`. */
  function Pow2(k: nat): nat
  {
    if k == 0 then 1 else 2 * Pow2(k - 1)
  }

  /** The waits slept before attempts 2 .. n + 1: `2 ** 0, ..., 2 ** (n - 1)`. */
  function Backoff(n: nat): (w: seq<nat>)
    ensures |w| == n
    ensures forall i :: 0 <= i < n ==> w[i] == Pow2(i)
  {
    seq(n, i requires 0 <= i < n => Pow2(i))
  }

  /** What any run of the loop over `outcomes` satisfies: every attempt but the
      last hit a retryable error, the last one is not retryable unless the
      attempts are used up, its outcome is what the loop returns or raises,
      and one backoff wait separates consecutive attempts. */
  predicate IsLoopRun(outcomes: seq<Outcome>, run: Run)
  {
    && 1 <= run.attempts <= MaxRetries
    && run.attempts <= |outcomes|
    && (forall i :: 0 <= i < run.attempts - 1 ==> Retryable(outcomes[i]))
    && (run.attempts < MaxRetries ==> !Retryable(outcomes[run.attempts - 1]))
    && run.stop == StopOf(outcomes[run.attempts - 1])
    && run.waits == Backoff(run.attempts - 1)
  }

  /** The number of invokes made when attempt `k + 1` is about to start. */
  function AttemptsFrom(outcomes: seq<Outcome>, k: nat): (n: nat)
    requires k < MaxRetries <= |outcomes|
    ensures k < n <= MaxRetries
    ensures forall i :: k <= i < n - 1 ==> Retryable(outcomes[i])
    ensures n < MaxRetries ==> !Retryable(outcomes[n - 1])
    decreases MaxRetries - k
  {
    if k == MaxRetries - 1 || !Retryable(outcomes[k]) then k + 1
    else AttemptsFrom(outcomes, k + 1)
  }

  /** The run of the loop, as a function of what the agent does. */
  function RetrySpec(outcomes: seq<Outcome>): (run: Run)
    requires |outcomes| >= MaxRetries
    ensures IsLoopRun(outcomes, run)
    ensures run.waits == [] || run.waits == [1] || run.waits == [1, 2]
  {
    var n := AttemptsFrom(outcomes, 0);
    assert n == 1 || n == 2 || n == 3;
    assert Backoff(1) == [1];
    assert Backoff(2) == [1, 2];
    Run(StopOf(outcomes[n - 1]), Backoff(n - 1), n)
  }

  /** `IsLoopRun` pins the run down: exactly one run satisfies it. */
  lemma LoopRunUnique(outcomes: seq<Outcome>, run: Run)
    requires |outcomes| >= MaxRetries
    ensures IsLoopRun(outcomes, run) <==> run == RetrySpec(outcomes)
  {
  }

  /** The loop as written: `while retry_count < max_retries`, `break` on a
      response, `raise` on an error that is not retried. `exitedByGuard`
      reports a loop left by its guard with no response, which the turn would
      treat as "no response" and append nothing for; it never happens. */
  method RetryLoop(outcomes: seq<Outcome>) returns (run: Run, exitedByGuard: bool)
    requires |outcomes| >= MaxRetries
    ensures !exitedByGuard
    ensures IsLoopRun(outcomes, run)
    ensures run == RetrySpec(outcomes)
  {
    var retryCount: nat := 0;
    var waits: seq<nat> := [];
    var stop: Option<Stop> := None;
    while retryCount < MaxRetries
      invariant retryCount < MaxRetries
      invariant forall i :: 0 <= i < retryCount ==> Retryable(outcomes[i])
      invariant waits == Backoff(retryCount)
      invariant stop.None?
    {
      match outcomes[retryCount]
      case Ok(out) =>
        stop := Some(Returned(out));
        break;
      case Err(e) =>
        if Classify.MentionsServerError(e) && retryCount < MaxRetries - 1 {
          waits := waits + [Pow2(retryCount)];
          retryCount := retryCount + 1;
        } else {
          stop := Some(Raised(e));
          break;
        }
    }
    exitedByGuard := stop.None?;
    run := Run(if stop.Some? then stop.value else Raised(""), waits, retryCount + 1);
    LoopRunUnique(outcomes, run);
  }

  // ---- the scenarios the retry policy promises

  /** The first response ends the loop and is what the turn receives. */
  lemma FirstResponseWins(outcomes: seq<Outcome>, i: nat)
    requires |outcomes| >= MaxRetries && i < MaxRetries
    requires forall j :: 0 <= j < i ==> Retryable(outcomes[j])
    requires outcomes[i].Ok?
    ensures RetrySpec(outcomes) == Run(Returned(outcomes[i].output), Backoff(i), i + 1)
  {
  }

  /** An error without "500" is raised at once: no wait, no further invoke. */
  lemma NonServerErrorRaisedAtOnce(outcomes: seq<Outcome>, i: nat)
    requires |outcomes| >= MaxRetries && i < MaxRetries
    requires forall j :: 0 <= j < i ==> Retryable(outcomes[j])
    requires outcomes[i].Err? && !Classify.MentionsServerError(outcomes[i].text)
    ensures RetrySpec(outcomes) == Run(Raised(outcomes[i].text), Backoff(i), i + 1)
  {
  }

  /** Three "500" errors: waits of 1 and 2, then the third error is raised; no fourth invoke. */
  lemma ServerErrorsExhaustRetries(outcomes: seq<Outcome>)
    requires |outcomes| >= MaxRetries
    requires Retryable(outcomes[0]) && Retryable(outcomes[1]) && Retryable(outcomes[2])
    ensures RetrySpec(outcomes) == Run(Raised(outcomes[2].text), [1, 2], 3)
  {
  }

  /** Two "500" errors then a response: waits of 1 and 2, and the third output is returned. */
  lemma RecoversOnThirdAttempt(outcomes: seq<Outcome>)
    requires |outcomes| >= MaxRetries
    requires Retryable(outcomes[0]) && Retryable(outcomes[1]) && outcomes[2].Ok?
    ensures RetrySpec(outcomes) == Run(Returned(outcomes[2].output), [1, 2], 3)
  {
  }

  /** The loop raises a "500" error only once the attempts are used up. */
  lemma ServerErrorRaisedOnlyWhenExhausted(outcomes: seq<Outcome>)
    requires |outcomes| >= MaxRetries
    requires RetrySpec(outcomes).stop.Raised?
    ensures Classify.MentionsServerError(RetrySpec(outcomes).stop.error) <==>
      RetrySpec(outcomes).attempts == MaxRetries &&
      Classify.MentionsServerError(outcomes[MaxRetries - 1].text)
  {
  }
}

=== FILE: session.dfy ===
/**
 The per-user session record (Streamlit's `st.session_state`) and the
 three operations that write it outside a chat turn: initialisation,
 "Clear Conversation", and taking in an uploaded PDF.

 `RawState` is the store as Python sees it before initialisation: each
 key may be missing (`None` here) or present with a value, and a present
 value may itself be Python's `None`. `Session` is the store once every
 key is present.
 */
module SessionState {
  import opened Common

  datatype Role = User | Assistant

  /** One entry of `messages`: `{"role": ..., "content": ...}`. */
  datatype Entry = Entry(role: Role, content: string)

  /** The conversation memory handed to the agent executor. Its contents are
      managed inside the agent library; the controller only creates it
      empty and clears it. */
  datatype Memory = Memory(transcript: seq<Entry>)

  /** An agent executor built by setup; opaque to the controller. */
  datatype Executor = Executor(handle: nat)

  datatype Session = Session(
    messages: seq<Entry>,
    memory: Memory,
    executor: Option<Executor>,
    pdfContent: Option<seq<byte>>,
    pdfFilename: Option<string>,
    pdfFullText: Option<string>,
    chartImage: Option<string>
  )

  /** The store before initialisation: `None` is a missing key. */
  datatype RawState = RawState(
    messages: Option<seq<Entry>>,
    memory: Option<Memory>,
    executor: Option<Option<Executor>>,
    pdfContent: Option<Option<seq<byte>>>,
    pdfFilename: Option<Option<string>>,
    pdfFullText: Option<Option<string>>,
    chartImage: Option<Option<string>>
  )

  /** A fresh `ConversationBufferMemory`: no turns recorded. */
  const EmptyMemory := Memory([])

  /** A store with no keys, as on the first run of the script. */
  const NoKeys := RawState(None, None, None, None, None, None, None)

  /** The value of a key, or `default` if the key is missing. */
  function OrDefault<T>(slot: Option<T>, default: T): T
  {
    if slot.Some? then slot.value else default
  }

  /** `initialize_session_state`: every missing key gets its default
      (`messages = []`, a fresh memory, every other slot `None`); every key
      already present keeps its value. */
  function Initialize(raw: RawState): (s: Session)
    ensures raw.messages.Some? ==> s.messages == raw.messages.value
    ensures raw.messages.None? ==> s.messages == []
    ensures raw.memory.Some? ==> s.memory == raw.memory.value
    ensures raw.memory.None? ==> s.memory == EmptyMemory
    ensures raw.executor.Some? ==> s.executor == raw.executor.value
    ensures raw.executor.None? ==> s.executor == None
    ensures raw.pdfContent.Some? ==> s.pdfContent == raw.pdfContent.value
    ensures raw.pdfContent.None? ==> s.pdfContent == None
    ensures raw.pdfFilename.Some? ==> s.pdfFilename == raw.pdfFilename.value
    ensures raw.pdfFilename.None? ==> s.pdfFilename == None
    ensures raw.pdfFullText.Some? ==> s.pdfFullText == raw.pdfFullText.value
    ensures raw.pdfFullText.None? ==> s.pdfFullText == None
    ensures raw.chartImage.Some? ==> s.chartImage == raw.chartImage.value
    ensures raw.chartImage.None? ==> s.chartImage == None
  {
    Session(
      OrDefault(raw.messages, []),
      OrDefault(raw.memory, EmptyMemory),
      OrDefault(raw.executor, None),
      OrDefault(raw.pdfContent, None),
      OrDefault(raw.pdfFilename, None),
      OrDefault(raw.pdfFullText, None),
      OrDefault(raw.chartImage, None)
    )
  }

  /** The store holding every key of `s`. */
  function Stored(s: Session): (raw: RawState)
    ensures raw.messages == Some(s.messages) && raw.memory == Some(s.memory)
    ensures raw.executor == Some(s.executor) && raw.chartImage == Some(s.chartImage)
    ensures raw.pdfContent == Some(s.pdfContent) && raw.pdfFilename == Some(s.pdfFilename)
    ensures raw.pdfFullText == Some(s.pdfFullText)
  {
    RawState(Some(s.messages), Some(s.memory), Some(s.executor), Some(s.pdfContent),
      Some(s.pdfFilename), Some(s.pdfFullText), Some(s.chartImage))
  }

  /** Running initialisation on an initialised store changes nothing. */
  lemma InitializeKeepsSession(s: Session)
    ensures Initialize(Stored(s)) == s
  {
  }

  /** Initialisation is idempotent: the script runs it on every rerun. */
  lemma InitializeIdempotent(raw: RawState)
    ensures Initialize(Stored(Initialize(raw))) == Initialize(raw)
  {
  }

  /** The first run of the script yields the empty session. */
  lemma InitializeFresh()
    ensures Initialize(NoKeys) == Session([], EmptyMemory, None, None, None, None, None)
  {
  }

  /** "Clear Conversation": messages emptied, memory cleared, chart dropped;
      the agent executor and all document state are kept. */
  function Clear(s: Session): (t: Session)
    ensures t.messages == [] && t.memory == EmptyMemory && t.chartImage == None
    ensures t.executor == s.executor
    ensures t.pdfContent == s.pdfContent && t.pdfFilename == s.pdfFilename
    ensures t.pdfFullText == s.pdfFullText
  {
    s.(messages := [], memory := EmptyMemory, chartImage := None)
  }

  /** A file the uploader hands over: its name and its bytes. */
  datatype Upload = Upload(name: string, content: seq<byte>)

  /** Taking in an upload: the bytes and the name are overwritten; nothing
      else changes, so the extracted text of an earlier document stays. */
  function TakeUpload(s: Session, u: Upload): (t: Session)
    ensures t.pdfContent == Some(u.content) && t.pdfFilename == Some(u.name)
    ensures t.pdfFullText == s.pdfFullText
    ensures t.messages == s.messages && t.memory == s.memory
    ensures t.executor == s.executor && t.chartImage == s.chartImage
  {
    s.(pdfContent := Some(u.content), pdfFilename := Some(u.name))
  }

  /** Clearing twice is clearing once. */
  lemma ClearIdempotent(s: Session)
    ensures Clear(Clear(s)) == Clear(s)
  {
  }

  /** The uploader is read on every rerun: taking in the same file again
      changes nothing. */
  lemma TakeUploadIdempotent(s: Session, u: Upload)
    ensures TakeUpload(TakeUpload(s, u), u) == TakeUpload(s, u)
  {
  }

  /** Clearing and uploading touch disjoint slots, so their order does not matter. */
  lemma ClearCommutesWithUpload(s: Session, u: Upload)
    ensures Clear(TakeUpload(s, u)) == TakeUpload(Clear(s), u)
  {
  }

  /** A new upload does not invalidate the text extracted from the previous
      document: the session pairs the new file with the old text. */
  lemma UploadKeepsStaleText(s: Session, u: Upload, old_text: string)
    requires s.pdfFullText == Some(old_text)
    ensures TakeUpload(s, u).pdfFullText == Some(old_text)
  {
  }
}

=== FILE: text.dfy ===
/**
 The two string operations the controller uses on error texts: Python's
 substring test `sub in s` and `s.lower()`.
 */
module Text {

  /** `p` is a prefix of `s`. */
  predicate IsPrefix(p: string, s: string)
  {
    |p| <= |s| && s[..|p|] == p
  }

  /** `sub` occurs in `s` starting at index `i`. */
  predicate OccursAt(s: string, sub: string, i: nat)
  {
    i + |sub| <= |s| && s[i..i + |sub|] == sub
  }

  /** Python's `sub in s`: `sub` occurs somewhere in `s`. */
  predicate Contains(s: string, sub: string)
    decreases |s|
  {
    IsPrefix(sub, s) || (|s| > 0 && Contains(s[1..], sub))
  }

  /** The recursive test agrees with the positional meaning of `in`. */
  lemma {:induction false} ContainsIff(s: string, sub: string)
    ensures Contains(s, sub) <==> exists i: nat :: OccursAt(s, sub, i)
    decreases |s|
  {
    if Contains(s, sub) {
      if IsPrefix(sub, s) {
        assert OccursAt(s, sub, 0);
      } else {
        ContainsIff(s[1..], sub);
        var i: nat :| OccursAt(s[1..], sub, i);
        assert s[1..][i..i + |sub|] == s[i + 1..i + 1 + |sub|];
        assert OccursAt(s, sub, i + 1);
      }
    }
    if exists i: nat :: OccursAt(s, sub, i) {
      var i: nat :| OccursAt(s, sub, i);
      if i == 0 {
        assert IsPrefix(sub, s);
      } else {
        assert s[1..][i - 1..i - 1 + |sub|] == s[i..i + |sub|];
        assert OccursAt(s[1..], sub, i - 1);
        ContainsIff(s[1..], sub);
      }
    }
  }

  /** Python's `str.lower()` on one character, restricted to ASCII letters. */
  function LowerChar(c: char): (d: char)
    ensures 'A' <= c <= 'Z' ==> d != c && 'a' <= d <= 'z'
    ensures !('A' <= c <= 'Z') ==> d == c
  {
    if 'A' <= c <= 'Z' then (c as int - 'A' as int + 'a' as int) as char else c
  }

  /** Python's `str.lower()`, character by character. */
  function Lower(s: string): (r: string)
    ensures |r| == |s|
    ensures forall i :: 0 <= i < |s| ==> r[i] == LowerChar(s[i])
  {
    seq(|s|, i requires 0 <= i < |s| => LowerChar(s[i]))
  }

  /** A substring survives lower-casing, in lower-cased form. */
  lemma ContainsLower(s: string, sub: string)
    requires Contains(s, sub)
    ensures Contains(Lower(s), Lower(sub))
  {
    ContainsIff(s, sub);
    var i: nat :| OccursAt(s, sub, i);
    assert Lower(s)[i..i + |sub|] == Lower(sub);
    assert OccursAt(Lower(s), Lower(sub), i);
    ContainsIff(Lower(s), Lower(sub));
  }

  /** Containment is transitive: a substring of a substring is a substring. */
  lemma ContainsTransitive(s: string, mid: string, sub: string)
    requires Contains(s, mid) && Contains(mid, sub)
    ensures Contains(s, sub)
  {
    ContainsIff(s, mid);
    var i: nat :| OccursAt(s, mid, i);
    ContainsIff(mid, sub);
    var j: nat :| OccursAt(mid, sub, j);
    forall k | 0 <= k < |sub|
      ensures s[i + j..i + j + |sub|][k] == sub[k]
    {
      assert s[i..i + |mid|][j + k] == mid[j + k];
      assert mid[j..j + |sub|][k] == sub[k];
    }
    assert OccursAt(s, sub, i + j);
    ContainsIff(s, sub);
  }
}
